=== FILE: README.md ===
# F5 BIG-IQ certificate store orchestrator — verified model of its decision logic

The Keyfactor F5 BIG-IQ orchestrator lets the Keyfactor platform manage the
SSL certificates of an F5 BIG-IQ appliance. This is done through its REST API.
This project models the decision logic around those REST calls and proves
properties about it:

- **Certificate pager** (`F5BigIQClient.GetCertificates`). Pages of 50 are
  requested with `top` and `skip` query parameters. The walk stops at an empty
  page, or at a page that reports itself as the last. The next index is the
  server's reported page index plus one.
- **Client rules** (`F5BigIQClient`). These cover which HTTP statuses
  `SubmitRequest` accepts, and the error message it raises for the rest. They
  also cover the rewrite of `localhost` in a certificate's resource link, and
  the choice between basic authentication and the `X-F5-Auth-Token` header.
- **Reenrollment job** (`Reenrollment.ProcessJob`). Store properties become
  typed settings with defaults. A blank alias is refused. The CSR generation
  call decides between Success and Failure.
- **Management job** (`Management.ProcessJob`). Two flags are read, a client is
  built, and the operation type selects add/replace, a no-op remove, or an
  "Unsupported operation" failure.

The .NET conversions the jobs rely on are modelled for the text the jobs feed
them: `bool.Parse`, `Convert.ToInt32` on a string, `int.ToString`, and
ordinal `string.Replace`. The limits of these models are listed under
"Left out". C# `int` arithmetic is unchecked. It is modelled as 32-bit
wrap-around (`Numerals.Wrap32`).

Every call the source makes into the network or into code that is not shown
becomes a function parameter that returns a value or the message of the
exception it threw:

- the page server in the pager;
- the login post in the client;
- client construction, `GenerateCSR` and `AddReplaceCertificate` in the jobs.

A store's properties object is a `map<string, string>`. A key is absent when
the property is missing or JSON null.

Modules:

- `Wrappers`: Option and Result.
- `Numerals`: Int32, wrap-around, decimal printing and parsing.
- `Strings`: replace, split and join.
- `Conversions`: the .NET parsers.
- `Pager`.
- `Client`.
- `Jobs`: property reading and job results shared by the two jobs.
- `Reenrollment`.
- `Management`.

Points where the source disagrees with itself:

- The page query is written `?top=50&$skip=…`, with no `$` before `top`.
- `GetAccessToken` sets a `ProviderName` on the login request. The login
  request class names that field `LoginProviderName`. The value is hard-coded
  to `"tmos"`, and the job's `LoginProviderName` property never reaches it.
- The only constructor shown, `F5BigIQClient(baseUrl, id, pswd, useTokenAuth)`,
  does not match the arities both jobs call it with. Construction is therefore
  an abstract call in the job models.
- `DeployCertificateOnRenewal` is parsed, so a malformed value still throws.
  Its value is never used (`Reenrollment.DeployFlagUnused`).
- Reenrollment reads token authentication from `UseTokenAuth`. Management
  reads it from `UseTokenAuthentication` (`Management.ReenrollmentTokenKeyNotRead`).

## Model

| member | source | states |
|---|---|---|
| Numerals.Wrap32 | F5BigIQ/F5BigIQClient.cs:56 | C# unchecked `int` arithmetic: the result is an Int32, and equals the exact value whenever that is in range |
| Numerals.Wrap32Congruent | F5BigIQ/F5BigIQClient.cs:56 | the wrapped value differs from the exact one by a multiple of 2^32, so with the Int32 range it is the unique value keeping the low 32 bits |
| Numerals.IntToStringRoundTrip | F5BigIQ/F5BigIQClient.cs:56 | `int.ToString` renders every integer as a decimal string that parses back to that integer, so the query carries the value and nothing else |
| Pager.RequestFor | F5BigIQ/F5BigIQClient.cs:49-56 | every page request asks for 50 items; for every Int32 index k the skip is C#'s unchecked `(k-1)*50`, the exact product wrapped once to 32 bits, which is the exact (k-1)*50 for k from 1 to 42,949,673; the first request (index 1) has skip 0 |
| Pager.ResourceFor | F5BigIQ/F5BigIQClient.cs:56 | the listing path followed by `?top=50&$skip=` and the unchecked `(k-1)*50` in `int.ToString` text |
| Pager.ResourceForRoundTrip | F5BigIQ/F5BigIQClient.cs:56 | the resource path of a page request can be read back into exactly that request's top and skip |
| Pager.Enumerate | F5BigIQ/F5BigIQClient.cs:54-70 | the reference listing from a page index within a request budget, against which the loop and every pager lemma are stated; a finished listing made a first request, and that request succeeded |
| Pager.PageStep | F5BigIQ/F5BigIQClient.cs:61-69 | an empty page ends the listing and contributes nothing; a non-empty page reporting pageIndex == totalPages is appended and ends it; any other page is appended before the listing from the reported index plus one |
| Pager.RunIsListed | F5BigIQ/F5BigIQClient.cs:52-74 | a complete run of page visits within the request budget yields exactly the in-order concatenation of the visited pages' items |
| Pager.ListedHasRun | F5BigIQ/F5BigIQClient.cs:52-74 | conversely, every finished listing is the concatenation of the items of a complete run of visits starting at page 1 |
| Pager.ListingIsRun | F5BigIQ/F5BigIQClient.cs:45-75 | given the run from page 1, the listing is its concatenated items when the budget covers the run, and unfinished otherwise |
| Pager.RunShape | F5BigIQ/F5BigIQClient.cs:54-70 | in a run the first request has skip 0, every page but the last is non-empty and not reported last, and the last page is empty or reported last |
| Pager.AdvancingServerFinishes | F5BigIQ/F5BigIQClient.cs:69-70 | a server whose reported indices stay at or above the requested index and below a bound ends the listing within that bound of requests |
| Pager.StuckServerNeverFinishes | F5BigIQ/F5BigIQClient.cs:54-70 | a server that keeps reporting page 1 of 2 keeps the loop going for any number of requests: termination rests on the server, not the loop |
| Pager.GetCertificates | F5BigIQ/F5BigIQClient.cs:45-75 | the do-while loop returns the listing's items when it finishes and raises the failing request's exception otherwise |
| Client.SubmitRequest | F5BigIQ/F5BigIQClient.cs:156-180 | a transport exception is rethrown unchanged; a response is accepted iff its status is 200, 201, 202 or 204, and then yields its content; otherwise the error is "Error processing " + resource + ": " + content + " " + errorMessage, null parts empty |
| Client.OnlyFourCodesAccepted | F5BigIQ/F5BigIQClient.cs:169-172 | every status outside 200..204, and 203, is refused |
| Client.CertificateLink | F5BigIQ/F5BigIQClient.cs:82 | the link is the command split at its left-to-right occurrences of "localhost" and joined back with the base URL |
| Client.CertificateLinkRewritesOnlyLocalhost | F5BigIQ/F5BigIQClient.cs:82 | the link is the command cut at every "localhost" and glued back with the base URL; the cut loses nothing and leaves no "localhost" in any piece; a command without "localhost" is unchanged |
| Client.TokenAuthFailsAsWritten | F5BigIQ/F5BigIQClient.cs:36-43 | where the written constructor and the corrected build part: with token authentication and a server that accepts the login, the written constructor throws while the corrected build yields a client whose only default header is `X-F5-Auth-Token` carrying the login's token |
| Client.GetRestClientAsWritten | F5BigIQ/F5BigIQClient.cs:190-204 | as written: without token authentication the client carries the basic credentials and no header; with it, the build fails with a null reference when no client exists yet and otherwise succeeds iff the login does; a built client always has the base URL and exactly one form of authentication |
| Client.NewClientAsWritten | F5BigIQ/F5BigIQClient.cs:36-43 | the constructor as written: with token authentication it always fails with a null reference; without it, it yields a client with the basic credentials and no token header |
| Client.GetRestClient | F5BigIQ/F5BigIQClient.cs:190-204 | corrected (login sent through the client being built): a built client has the base URL and exactly one form of authentication: basic credentials iff token authentication is off, the X-F5-Auth-Token header iff it is on, carrying the token returned by the login that posts the user id and password with provider "tmos" to `/mgmt/shared/authn/login` (lines 127-138); a failed login fails the build with its message |
| Jobs.Given | F5BigIQ/Reenrollment.cs:44-52 | a property counts as given iff it is present and not the empty string, and then its value is the stored string |
| Jobs.ReadFlag | F5BigIQ/Reenrollment.cs:44-46 | a flag is false when not given and otherwise the `bool.Parse` of its value |
| Jobs.ReadFlagRoundTrip | F5BigIQ/Reenrollment.cs:44-46 | a flag stored the way `bool.ToString` writes it reads back as itself |
| Conversions.ParseBool | F5BigIQ/Reenrollment.cs:44-46 | `bool.Parse` succeeds only on text whose trimmed form is "True" or "False" up to letter case, with that value, and otherwise throws a format exception |
| Conversions.ParseBoolRoundTrip | F5BigIQ/Reenrollment.cs:44-46 | `bool.Parse` reads back what `bool.ToString` writes |
| Conversions.ParseBoolIgnoresPadding | F5BigIQ/Reenrollment.cs:44-46 | white space and NUL characters around a flag's text do not change what `bool.Parse` makes of it |
| Conversions.ToInt32 | F5BigIQ/Reenrollment.cs:49 | `Convert.ToInt32` of a string fails only with a format or an overflow exception |
| Conversions.ToInt32RoundTrip | F5BigIQ/Reenrollment.cs:49 | `Convert.ToInt32` reads back every Int32 that `int.ToString` writes |
| Conversions.ToInt32IgnoresPadding | F5BigIQ/Reenrollment.cs:49 | white space around the number does not change what `Convert.ToInt32` makes of it |
| Reenrollment.ReadKeySizeAsWritten | F5BigIQ/Reenrollment.cs:49 | as written, a store without a key size makes the key-size line throw a binder exception |
| Reenrollment.MissingKeySizeEscapesAsWritten | F5BigIQ/Reenrollment.cs:49 | for a store without a key size, the key-size line as written throws while the intended reading gives "no key size" |
| Reenrollment.ReadKeySize | F5BigIQ/Reenrollment.cs:49 | the key size is absent when not given; otherwise it is present iff `Convert.ToInt32` accepts the value, and is that integer; a failing conversion's exception is passed on |
| Reenrollment.ReadSettings | F5BigIQ/Reenrollment.cs:44-51 | corrected (a missing key size read as absent): the settings are read iff all three flags and the key size convert; the token and SSL flags are their `ReadFlag` values, the login provider defaults to "tmos", and the key size is present iff given; when reading fails, the exception is `bool.Parse`'s FormatException if any flag is malformed, and otherwise the exception `Convert.ToInt32` throws for the key size |
| Reenrollment.ReadSettingsOf | F5BigIQ/Reenrollment.cs:44-51 | the settings are exactly the field-by-field readings of their properties |
| Reenrollment.TextSettingsRoundTrip | F5BigIQ/Reenrollment.cs:47-51 | stored text settings read back unchanged, the login provider included when it is not blank |
| Reenrollment.KeySizeSettingRoundTrip | F5BigIQ/Reenrollment.cs:49 | a stored key size reads back as itself, and an unstored one as absent |
| Reenrollment.SettingsRoundTrip | F5BigIQ/Reenrollment.cs:44-51 | storing any settings (with a non-blank login provider) the way .NET writes them and reading them back gives the same settings |
| Reenrollment.ProcessJob | F5BigIQ/Reenrollment.cs:41-72 | corrected (a missing key size read as absent): a flag or key size that does not convert escapes, as the exception the reading throws, with no request made; a blank alias gives a Failure carrying the site prefix and the alias-missing message, with no client; otherwise one request carries the alias property's value, the job's client machine, store path and credentials, and every setting but the deploy flag as read from the properties, and its exception gives a Failure with the flattened message behind the site prefix; every result carries the job history id |
| Reenrollment.DeployFlagUnused | F5BigIQ/Reenrollment.cs:44 | two stores that differ only in a valid DeployCertificateOnRenewal value run the job identically |
| Management.ReadManagementSettings | F5BigIQ/Management.cs:38-39 | the flags read iff both IgnoreSSLWarning and UseTokenAuthentication convert, each false when not given and otherwise its `bool.Parse` value; a failure is a format exception |
| Management.ManagementSettingsRoundTrip | F5BigIQ/Management.cs:38-39 | flags stored the way `bool.ToString` writes them read back as the same settings |
| Management.ReenrollmentTokenKeyNotRead | F5BigIQ/Management.cs:39 | a store that turns token authentication on only under the reenrollment key "UseTokenAuth" leaves a management job on basic authentication |
| Management.ProcessJobAsWritten | F5BigIQ/Management.cs:37-62 | a flag that does not convert escapes; otherwise a client is built and the result carries the job history id; it is a Failure exactly for an unsupported operation with a client built, with the message "Site … on server …: Unsupported operation: <op>"; an add passes store path, alias, contents, key password and overwrite unchanged; every other path, thrown exceptions included, reports Success |
| Management.FailedAddReportsSuccessAsWritten | F5BigIQ/Management.cs:57-62 | as written, an add that throws is reported as Success, where the corrected job reports a Failure carrying the exception |
| Management.ProcessJob | F5BigIQ/Management.cs:41-62 | with exceptions reported: a failed client build or add gives a Failure with the flattened message behind the site prefix; add passes its arguments unchanged and succeeds iff the add does; remove makes no call and succeeds; any other operation fails as unsupported |
| Management.AsWrittenAgreesWithoutExceptions | F5BigIQ/Management.cs:41-62 | when neither the client build nor the add throws, the job as written and the corrected job behave identically |

## Left out

- Pager.GetCertificates: the loop has no cap in the source. The method takes a ghost request budget within which the server must end the listing. A server that never ends it is covered by `Pager.StuckServerNeverFinishes`, not by the method.
- Conversions.ParseBool: the contract states the success direction and the error kind. The converse, that "True" and "False" in any case are accepted, is carried by `Conversions.ParseBoolRoundTrip` and `Conversions.ParseBoolIgnoresPadding` for the texts `bool.ToString` writes.
- Conversions.ToInt32: the contract states only the error kinds. What it accepts is stated by `Conversions.ToInt32RoundTrip` and `Conversions.ToInt32IgnoresPadding`.
- The SCP download of a certificate file (`DownloadCertificateFile`) is left out. It is network I/O.
- REST execution and the login post are left out. They are foreign library calls and appear only as parameters.
- JSON decoding is left out. Pages and responses are already-decoded records. A 204 response with an empty body would still fail JSON parsing in the source after the status check; the model stops at the status check.
- `X509Certificate2` construction in `GetCertificate` is left out. It is an opaque crypto library.
- Logging is left out. It has no behaviour.
- `Inventory.cs` is not part of this model. Its try block is empty.
- `F5BigIQException.FlattenExceptionMessages` is not part of this model. A flattened message is kept as its prefix plus the exception's message (`Jobs.Flattened`).
- `SetPAMSecrets` is left out. The resolved server user name and password are inputs of the job.
- `AddReplaceCertificate`, `GenerateCSR` and client construction are left out as implementations. They are not implemented in any shown file, so each is an abstract call that returns nothing or an exception message.
- The members of `CertStoreOperationType` other than Add and Remove are represented by name, as `Management.Other`; the name is neither "Add" nor "Remove" (`Management.OtherOperation`), since those members are handled by their own cases.
- `bool.Parse` case folding is modelled for ASCII letters only, because "True" and "False" are ASCII.
- The culture's sign symbols in `Convert.ToInt32` are fixed to the invariant culture's "-" and "+".
- Pager.ResourceFor: the minus sign that `int.ToString` writes for a negative skip (an index of 0 or below, or a product that wraps negative) is fixed to the invariant culture's "-" (`Numerals.IntToString`); .NET writes the current culture's negative sign, which some cultures give as U+2212.
- A trailing NUL tolerance in .NET number parsing is left out.
- A listing page whose JSON has no `items` array leaves the item list null in the source, and line 61 then throws a null-reference exception. `Pager.CertificatePage` always holds a list, so the model can show such a page only as a server `Failure`.
- Store property values that are JSON non-strings are left out. The source reads `.Value` of each property as a string.

## Findings

| source | as written | input that shows it | evidently intended | confidence | as-written member | corrected member |
|---|---|---|---|---|---|---|
| F5BigIQ/F5BigIQClient.cs:36-43 | the constructor assigns `Client` only after `GetRestClient` returns, but in token mode `GetRestClient` calls `GetAccessToken`, whose `SubmitRequest` executes on `Client` (line 160), still null | `useTokenAuth = true`, any credentials and server | post the login through the client being built and add its token as the `X-F5-Auth-Token` header | medium; not executed | Client.TokenAuthFailsAsWritten | Client.GetRestClient |
| F5BigIQ/Reenrollment.cs:49 | `cond ? string.Empty : Convert.ToInt32(dynamic)` has type `dynamic`; when the key size is missing, assigning `""` to `int?` throws a binder exception, outside the try block | a store with no `keySize` property, or an empty one | a missing key size means "no key size" (`null`) | medium; not executed | Reenrollment.MissingKeySizeEscapesAsWritten | Reenrollment.ReadKeySize |
| F5BigIQ/Management.cs:57-62 | the catch block only logs, then the job falls through to Success | an Add whose `AddReplaceCertificate` (or client construction) throws | report a Failure with the flattened exception behind the site prefix, as `Reenrollment.ProcessJob` does (Reenrollment.cs:66-70) | medium; not executed | Management.FailedAddReportsSuccessAsWritten | Management.ProcessJob |

=== FILE: client.dfy ===
/**
 * The decision rules of `F5BigIQClient` around its REST calls: which
 * responses are accepted, how a certificate's resource link is rewritten,
 * and how the REST client is authenticated.
 */
module Client {
  import opened Wrappers
  import opened Strings

  /** The HTTP status codes `SubmitRequest` accepts: OK, Created, Accepted, NoContent. */
  const AcceptedStatusCodes: set<int> := {200, 201, 202, 204}

  /**
   * An executed REST response. `content` and `errorMessage` are `None` where
   * the response carries a null string.
   */
  datatype Response = Response(statusCode: int, content: Option<string>, errorMessage: Option<string>)

  /** A null string renders as nothing in string concatenation. */
  function OrEmpty(s: Option<string>): string {
    s.GetOr("")
  }

  /**
   * `SubmitRequest` up to JSON parsing: `exchange` is the executed request,
   * or the exception its execution threw. The result is the body handed to
   * the JSON parser, or the message of the exception thrown.
   */
  function SubmitRequest(resource: string, exchange: Result<Response, string>): (r: Result<Option<string>, string>)
    ensures exchange.Failure? ==> r == Failure(exchange.error)
    ensures exchange.Success? ==> (r.Success? <==> exchange.value.statusCode in AcceptedStatusCodes)
    ensures r.Success? ==> r.value == exchange.value.content
    ensures exchange.Success? && r.Failure? ==>
      r.error == "Error processing " + resource + ": "
                 + OrEmpty(exchange.value.content) + " " + OrEmpty(exchange.value.errorMessage)
  {
    match exchange
    case Failure(thrown) => Failure(thrown)
    case Success(response) =>
      var code := response.statusCode;
      if code != 200 && code != 202 && code != 201 && code != 204 then
        var errorMessage := OrEmpty(response.content) + " " + OrEmpty(response.errorMessage);
        Failure("Error processing " + resource + ": " + errorMessage)
      else
        Success(response.content)
  }

  /** Every other 2xx code, and every code outside 2xx, is refused. */
  lemma OnlyFourCodesAccepted(resource: string, response: Response)
    requires response.statusCode < 200 || response.statusCode > 204 || response.statusCode == 203
    ensures SubmitRequest(resource, Success(response)).Failure?
  {
  }

  const Localhost := "localhost"

  /** The resource link of `GetCertificate`: the command with every "localhost" replaced by the base URL. */
  function CertificateLink(command: string, baseUrl: string): (link: string)
    ensures link == Join(Split(command, Localhost), baseUrl)
  {
    ReplaceIsSplitJoin(command, Localhost, baseUrl);
    ReplaceAll(command, Localhost, baseUrl)
  }

  /**
   * The link is the command cut at its occurrences of "localhost" and glued
   * back with the base URL: cutting loses nothing, no piece still holds
   * "localhost", and a command without it is unchanged.
   */
  lemma CertificateLinkRewritesOnlyLocalhost(command: string, baseUrl: string)
    ensures Join(Split(command, Localhost), Localhost) == command
    ensures forall k :: 0 <= k < |Split(command, Localhost)| ==> !Occurs(Split(command, Localhost)[k], Localhost)
    ensures CertificateLink(command, baseUrl) == Join(Split(command, Localhost), baseUrl)
    ensures !Occurs(command, Localhost) ==> CertificateLink(command, baseUrl) == command
  {
    JoinSplit(command, Localhost);
    SplitPartsFree(command, Localhost);
    ReplaceIsSplitJoin(command, Localhost, baseUrl);
    if !Occurs(command, Localhost) {
      ReplaceAbsent(command, Localhost, baseUrl);
    }
  }

  datatype Credentials = Credentials(userId: string, password: string)

  datatype Header = Header(name: string, value: string)

  /** The configured REST client: base URL, the basic authenticator if any, default headers. */
  datatype RestClientConfig = RestClientConfig(baseUrl: string, authenticator: Option<Credentials>, defaultHeaders: seq<Header>)

  const AuthTokenHeader := "X-F5-Auth-Token"
  const LoginResource := "/mgmt/shared/authn/login"

  /** A login post: the resource it goes to and the body posted. */
  datatype LoginRequest = LoginRequest(resource: string, userId: string, password: string, providerName: string)

  /** `GetAccessToken` always posts to the login resource with the provider "tmos". */
  function LoginFor(id: string, pswd: string): (request: LoginRequest)
    ensures request.resource == LoginResource && request.providerName == "tmos"
  {
    LoginRequest(LoginResource, id, pswd, "tmos")
  }

  /** Posting a login request through a client: the access token, or the exception thrown. */
  type LoginCall = (RestClientConfig, LoginRequest) -> Result<string, string>

  predicate HasTokenHeader(client: RestClientConfig) {
    exists i :: 0 <= i < |client.defaultHeaders| && client.defaultHeaders[i].name == AuthTokenHeader
  }

  /** The client authenticates one way: basic credentials or the token header, never both or neither. */
  predicate ExactlyOneAuth(client: RestClientConfig) {
    client.authenticator.Some? != HasTokenHeader(client)
  }

  const NullReference := "Object reference not set to an instance of an object."

  /**
   * `GetRestClient` as written: in token mode the login goes through
   * `SubmitRequest`, which executes on the instance's `Client` property,
   * here `current`.
   */
  function GetRestClientAsWritten(
    baseUrl: string, id: string, pswd: string, useTokenAuth: bool,
    current: Option<RestClientConfig>, login: LoginCall): (r: Result<RestClientConfig, string>)
    ensures !useTokenAuth ==> r == Success(RestClientConfig(baseUrl, Some(Credentials(id, pswd)), []))
    ensures useTokenAuth && current.None? ==> r == Failure(NullReference)
    ensures useTokenAuth && current.Some? ==> (r.Success? <==> login(current.value, LoginFor(id, pswd)).Success?)
    ensures r.Success? ==> r.value.baseUrl == baseUrl && ExactlyOneAuth(r.value)
  {
    var options := RestClientConfig(baseUrl, if !useTokenAuth then Some(Credentials(id, pswd)) else None, []);
    if !useTokenAuth then Success(options)
    else
      match current
      case None => Failure(NullReference)
      case Some(client) =>
        var token :- login(client, LoginFor(id, pswd));
        var withToken := options.(defaultHeaders := [Header(AuthTokenHeader, token)]);
        assert withToken.defaultHeaders[0].name == AuthTokenHeader;
        Success(withToken)
  }

  /** The constructor as written: `Client` is still null while `GetRestClient` runs. */
  function NewClientAsWritten(baseUrl: string, id: string, pswd: string, useTokenAuth: bool, login: LoginCall): (r: Result<RestClientConfig, string>)
    ensures useTokenAuth ==> r == Failure(NullReference)
    ensures !useTokenAuth ==> r.Success? && r.value.authenticator == Some(Credentials(id, pswd)) && !HasTokenHeader(r.value)
  {
    GetRestClientAsWritten(baseUrl, id, pswd, useTokenAuth, None, login)
  }

  /**
   * Where the written constructor and the corrected build part: with token
   * authentication and a server that accepts the login, the corrected build
   * yields a client carrying the token, while the written one throws.
   */
  lemma TokenAuthFailsAsWritten(baseUrl: string, id: string, pswd: string, login: LoginCall)
    requires login(RestClientConfig(baseUrl, None, []), LoginFor(id, pswd)).Success?
    ensures NewClientAsWritten(baseUrl, id, pswd, true, login).Failure?
    ensures GetRestClient(baseUrl, id, pswd, true, login).Success?
    ensures GetRestClient(baseUrl, id, pswd, true, login).value.defaultHeaders ==
      [Header(AuthTokenHeader, login(RestClientConfig(baseUrl, None, []), LoginFor(id, pswd)).value)]
  {
  }

  /**
   * `GetRestClient` with the login sent through the client being built (base
   * URL only, no authenticator) instead of the unset `Client` property; the
   * token it returns becomes the `X-F5-Auth-Token` default header.
   */
  function GetRestClient(baseUrl: string, id: string, pswd: string, useTokenAuth: bool, login: LoginCall): (r: Result<RestClientConfig, string>)
    ensures r.Success? ==> r.value.baseUrl == baseUrl && ExactlyOneAuth(r.value)
    ensures r.Success? ==> (r.value.authenticator == Some(Credentials(id, pswd)) <==> !useTokenAuth)
    ensures r.Success? ==> (HasTokenHeader(r.value) <==> useTokenAuth)
    ensures !useTokenAuth ==> r.Success? && r.value.defaultHeaders == []
    ensures useTokenAuth ==> (r.Success? <==> login(RestClientConfig(baseUrl, None, []), LoginRequest(LoginResource, id, pswd, "tmos")).Success?)
    ensures useTokenAuth && r.Success? ==>
      r.value.defaultHeaders == [Header(AuthTokenHeader, login(RestClientConfig(baseUrl, None, []), LoginRequest(LoginResource, id, pswd, "tmos")).value)]
    ensures useTokenAuth && r.Failure? ==>
      r.error == login(RestClientConfig(baseUrl, None, []), LoginRequest(LoginResource, id, pswd, "tmos")).error
  {
    GetRestClientAsWritten(baseUrl, id, pswd, useTokenAuth, Some(RestClientConfig(baseUrl, None, [])), login)
  }
}

=== FILE: conversions.dfy ===
/**
 * The two .NET text conversions the job entry points apply to store
 * properties: `bool.Parse` and `Convert.ToInt32(string)`.
 */
module Conversions {
  import opened Wrappers
  import opened Numerals

  /** What a conversion throws. */
  datatype ConversionError =
    | FormatError     // FormatException: the text is not a value of the target type
    | OverflowError   // OverflowException: the number does not fit in an Int32
    | BinderError     // RuntimeBinderException: a dynamic value of the wrong type

  /** `char.IsWhiteSpace`: the Unicode separators and the controls U+0009-U+000D and U+0085. */
  predicate IsWhiteSpace(c: char) {
    || c == ' ' || ('\t' <= c <= '\r') || c == '\U{85}' || c == '\U{A0}' || c == '\U{1680}'
    || ('\U{2000}' <= c <= '\U{200A}') || c == '\U{2028}' || c == '\U{2029}' || c == '\U{202F}'
    || c == '\U{205F}' || c == '\U{3000}'
  }

  /** Which characters a conversion trims from both ends of its input. */
  datatype Padding =
    | BoolPadding     // `bool.Parse`: white space and NUL
    | NumberPadding   // integer parsing with leading and trailing white allowed: U+0009-U+000D and space

  predicate IsPad(c: char, pad: Padding) {
    match pad
    case BoolPadding => c == '\0' || IsWhiteSpace(c)
    case NumberPadding => c == ' ' || ('\t' <= c <= '\r')
  }

  function TrimStart(s: string, pad: Padding): (r: string)
    ensures |r| <= |s| && r == s[|s| - |r|..]
  {
    if |s| > 0 && IsPad(s[0], pad) then
      var r := TrimStart(s[1..], pad);
      assert s[1..][|s| - 1 - |r|..] == s[|s| - |r|..];
      r
    else s
  }

  function TrimEnd(s: string, pad: Padding): (r: string)
    ensures |r| <= |s| && r == s[..|r|]
  {
    if |s| > 0 && IsPad(s[|s| - 1], pad) then
      var r := TrimEnd(s[..|s| - 1], pad);
      assert s[..|s| - 1][..|r|] == s[..|r|];
      r
    else s
  }

  /** Text that neither starts nor ends with padding is its own trim. */
  lemma TrimUnpadded(s: string, pad: Padding)
    requires |s| > 0 && !IsPad(s[0], pad) && !IsPad(s[|s| - 1], pad)
    ensures Trim(s, pad) == s
  {
  }

  /** The string without its leading and trailing padding characters. */
  function Trim(s: string, pad: Padding): string {
    TrimEnd(TrimStart(s, pad), pad)
  }

  predicate AllIn(s: string, pad: Padding) {
    forall i :: 0 <= i < |s| ==> IsPad(s[i], pad)
  }

  lemma {:induction false} TrimStartPadded(pre: string, s: string, pad: Padding)
    requires AllIn(pre, pad)
    ensures TrimStart(pre + s, pad) == TrimStart(s, pad)
    decreases |pre|
  {
    if |pre| > 0 {
      assert (pre + s)[0] == pre[0] && IsPad(pre[0], pad);
      assert (pre + s)[1..] == pre[1..] + s;
      TrimStartPadded(pre[1..], s, pad);
    } else {
      assert pre + s == s;
    }
  }

  lemma {:induction false} TrimEndPadded(s: string, post: string, pad: Padding)
    requires AllIn(post, pad)
    ensures TrimEnd(s + post, pad) == TrimEnd(s, pad)
    decreases |post|
  {
    if |post| > 0 {
      var q := post[..|post| - 1];
      assert (s + post)[..|s + post| - 1] == s + q;
      TrimEndPadded(s, q, pad);
    } else {
      assert s + post == s;
    }
  }

  lemma {:induction false} TrimStartAppend(s: string, t: string, pad: Padding)
    ensures TrimStart(s + t, pad) ==
            (if TrimStart(s, pad) == [] then TrimStart(t, pad) else TrimStart(s, pad) + t)
    decreases |s|
  {
    if |s| == 0 {
      assert s + t == t;
    } else if IsPad(s[0], pad) {
      assert (s + t)[1..] == s[1..] + t;
      TrimStartAppend(s[1..], t, pad);
    }
  }

  /** Text that trims to nothing still trims to nothing with padding after it. */
  lemma TrimBlankThenPadding(s: string, post: string, pad: Padding)
    requires AllIn(post, pad) && TrimStart(s, pad) == []
    ensures TrimEnd(TrimStart(s + post, pad), pad) == TrimEnd(TrimStart(s, pad), pad)
  {
    TrimStartAppend(s, post, pad);
    TrimStartPadded(post, [], pad);
    assert post + [] == post;
  }

  /** Padding after text with some content is cut off by the trim at the end. */
  lemma TrimContentThenPadding(s: string, post: string, pad: Padding)
    requires AllIn(post, pad) && TrimStart(s, pad) != []
    ensures TrimEnd(TrimStart(s + post, pad), pad) == TrimEnd(TrimStart(s, pad), pad)
  {
    TrimStartAppend(s, post, pad);
    TrimEndPadded(TrimStart(s, pad), post, pad);
  }

  /** Trailing padding does not change the trimmed text. */
  lemma TrimIgnoresTrailing(s: string, post: string, pad: Padding)
    requires AllIn(post, pad)
    ensures Trim(s + post, pad) == Trim(s, pad)
  {
    if TrimStart(s, pad) == [] {
      TrimBlankThenPadding(s, post, pad);
    } else {
      TrimContentThenPadding(s, post, pad);
    }
  }

  /** Leading padding does not change the trimmed text. */
  lemma TrimIgnoresLeading(pre: string, t: string, pad: Padding)
    requires AllIn(pre, pad)
    ensures Trim(pre + t, pad) == Trim(t, pad)
  {
    TrimStartPadded(pre, t, pad);
  }

  lemma AppendAssociates(a: string, b: string, c: string)
    ensures a + b + c == a + (b + c)
  {
  }

  /** Padding on either side does not change the trimmed text. */
  lemma TrimIgnoresPadding(pre: string, s: string, post: string, pad: Padding)
    requires AllIn(pre, pad) && AllIn(post, pad)
    ensures Trim(pre + s + post, pad) == Trim(s, pad)
  {
    AppendAssociates(pre, s, post);
    TrimIgnoresLeading(pre, s + post, pad);
    TrimIgnoresTrailing(s, post, pad);
  }

  function UpperAscii(c: char): char {
    if 'a' <= c <= 'z' then (c as int - 32) as char else c
  }

  /** Ordinal case-insensitive equality on the ASCII letters. */
  predicate EqualsIgnoreCase(a: string, b: string) {
    |a| == |b| && forall i :: 0 <= i < |a| ==> UpperAscii(a[i]) == UpperAscii(b[i])
  }

  /** `bool.ToString()`. */
  function BoolToString(b: bool): string {
    if b then "True" else "False"
  }

  /** `bool.Parse(s)`: "True" or "False" in any letter case, surrounded by any padding. */
  function ParseBool(s: string): (r: Result<bool, ConversionError>)
    ensures r.Success? ==> EqualsIgnoreCase(Trim(s, BoolPadding), BoolToString(r.value))
    ensures r.Failure? ==> r.error == FormatError
  {
    var t := Trim(s, BoolPadding);
    if EqualsIgnoreCase(t, "True") then Success(true)
    else if EqualsIgnoreCase(t, "False") then Success(false)
    else Failure(FormatError)
  }

  /** `bool.Parse` reads back what `bool.ToString` writes. */
  lemma ParseBoolRoundTrip(b: bool)
    ensures ParseBool(BoolToString(b)) == Success(b)
  {
    var s := BoolToString(b);
    assert !IsPad(s[0], BoolPadding) && !IsPad(s[|s| - 1], BoolPadding);
    TrimUnpadded(s, BoolPadding);
    if !b {
      assert !EqualsIgnoreCase(s, "True");
    }
  }

  /** `bool.Parse` does not see padding around the text. */
  lemma ParseBoolIgnoresPadding(pre: string, s: string, post: string)
    requires AllIn(pre, BoolPadding) && AllIn(post, BoolPadding)
    ensures ParseBool(pre + s + post) == ParseBool(s)
  {
    TrimIgnoresPadding(pre, s, post, BoolPadding);
  }

  /** An optional sign followed by at least one decimal digit, as an unbounded integer. */
  function SignedValue(t: string): (r: Result<int, ConversionError>)
    ensures r.Failure? ==> r.error == FormatError
  {
    var negative := |t| > 0 && t[0] == '-';
    var digits := if |t| > 0 && (t[0] == '-' || t[0] == '+') then t[1..] else t;
    if |digits| == 0 || !AllDigits(digits) then Failure(FormatError)
    else if negative then Success(0 - DigitsValue(digits))
    else Success(DigitsValue(digits) as int)
  }

  /**
   * `Convert.ToInt32(s)` for a non-null `s`: optional padding, an optional
   * sign, at least one decimal digit; a value outside Int32 overflows.
   */
  function ToInt32(s: string): (r: Result<Int32, ConversionError>)
    ensures r.Failure? ==> r.error == FormatError || r.error == OverflowError
  {
    var v :- SignedValue(Trim(s, NumberPadding));
    if Int32Min <= v <= Int32Max then Success(v) else Failure(OverflowError)
  }

  /** Whatever `Numerals.ParseInteger` reads, `SignedValue` reads the same way. */
  lemma SignedValueExtendsParseInteger(t: string)
    requires ParseInteger(t).Some?
    ensures SignedValue(t) == Success(ParseInteger(t).value)
  {
    if !(|t| > 1 && t[0] == '-' && AllDigits(t[1..])) {
      assert IsDigit(t[0]);
    }
  }

  lemma SignedValueOfIntToString(n: int)
    ensures SignedValue(IntToString(n)) == Success(n)
  {
    IntToStringRoundTrip(n);
    SignedValueExtendsParseInteger(IntToString(n));
  }

  /** Printed integers carry no padding to trim. */
  lemma IntToStringUnpadded(n: int)
    ensures Trim(IntToString(n), NumberPadding) == IntToString(n)
  {
    var s := IntToString(n);
    assert IsDigit(s[|s| - 1]);
    assert s[0] == '-' || IsDigit(s[0]);
    TrimUnpadded(s, NumberPadding);
  }

  /** `Convert.ToInt32` reads back what `int.ToString` writes. */
  lemma ToInt32RoundTrip(n: Int32)
    ensures ToInt32(IntToString(n)) == Success(n)
  {
    IntToStringUnpadded(n);
    SignedValueOfIntToString(n);
  }

  /** `Convert.ToInt32` does not see white space around the number. */
  lemma ToInt32IgnoresPadding(pre: string, s: string, post: string)
    requires AllIn(pre, NumberPadding) && AllIn(post, NumberPadding)
    ensures ToInt32(pre + s + post) == ToInt32(s)
  {
    TrimIgnoresPadding(pre, s, post, NumberPadding);
  }
}

=== FILE: jobs.dfy ===
/**
 * What the job entry points share: the store properties they read, how a
 * property becomes a setting, and the job result they hand back.
 */
module Jobs {
  import opened Wrappers
  import opened Conversions

  /**
   * The certificate store's properties object. A key is absent when the
   * property is missing or JSON null; every present value is a string.
   */
  type Properties = map<string, string>

  /** The property's value when it is present and not empty (`string.IsNullOrEmpty` is false). */
  function Given(properties: Properties, key: string): (v: Option<string>)
    ensures v.Some? <==> key in properties && properties[key] != ""
    ensures v.Some? ==> v.value == properties[key]
  {
    if key in properties && properties[key] != "" then Some(properties[key]) else None
  }

  /** A flag: false when not given, otherwise `bool.Parse` of the value. */
  function ReadFlag(properties: Properties, key: string): (r: Result<bool, ConversionError>)
    ensures Given(properties, key).None? ==> r == Success(false)
    ensures Given(properties, key).Some? ==> r == ParseBool(properties[key])
  {
    match Given(properties, key)
    case None => Success(false)
    case Some(text) => ParseBool(text)
  }

  /** A text setting: `default` when not given, otherwise the value unchanged. */
  function ReadText(properties: Properties, key: string, default: string): string {
    Given(properties, key).GetOr(default)
  }

  /** A flag written the way `bool.ToString` writes it is read back as itself. */
  lemma ReadFlagRoundTrip(properties: Properties, key: string, b: bool)
    requires key in properties && properties[key] == BoolToString(b)
    ensures ReadFlag(properties, key) == Success(b)
  {
    ParseBoolRoundTrip(b);
  }

  /** `OrchestratorJobStatusJobResult`. */
  datatype JobStatus = JobSuccess | JobFailure

  /**
   * A failure message: literal text, or an exception flattened by
   * `F5BigIQException.FlattenExceptionMessages` behind a prefix.
   */
  datatype FailureMessage = Text(text: string) | Flattened(prefix: string, cause: string)

  datatype JobResult = JobResult(status: JobStatus, jobHistoryId: int, failureMessage: Option<FailureMessage>)

  /** A job either returns a result or lets an exception escape to the framework. */
  datatype JobOutcome = Returned(result: JobResult) | Escaped(error: ConversionError)

  /** "Site <store path> on server <client machine>", the head of every failure message. */
  function SitePrefix(storePath: string, clientMachine: string): string {
    "Site " + storePath + " on server " + clientMachine
  }

  function Succeeded(jobHistoryId: int): JobOutcome {
    Returned(JobResult(JobSuccess, jobHistoryId, None))
  }

  function FailedWith(jobHistoryId: int, message: FailureMessage): JobOutcome {
    Returned(JobResult(JobFailure, jobHistoryId, Some(message)))
  }
}

=== FILE: management.dfy ===
/**
 * `Management.ProcessJob`: read two flags from the store properties, build a
 * client, then dispatch on the operation type.
 */
module Management {
  import opened Wrappers
  import opened Conversions
  import opened Jobs

  /** The name of a `CertStoreOperationType` member other than the two the job handles. */
  type OtherOperation = name: string | name != "Add" && name != "Remove" witness "Inventory"

  /** `CertStoreOperationType`: the two members the job handles, and every other member by name. */
  datatype OperationType = Add | Remove | Other(name: OtherOperation)

  /** The certificate the job carries. */
  datatype JobCertificate = JobCertificate(alias: string, contents: string, privateKeyPassword: string)

  /** A management job: store location, job id, resolved server credentials, store properties, operation. */
  datatype ManagementJob = ManagementJob(
    clientMachine: string,
    storePath: string,
    jobHistoryId: int,
    serverUserName: string,
    serverPassword: string,
    properties: Properties,
    operation: OperationType,
    certificate: JobCertificate,
    overwrite: bool)

  /** The two flags a management job reads; note the key "UseTokenAuthentication", not "UseTokenAuth". */
  datatype ManagementSettings = ManagementSettings(ignoreSslWarning: bool, useTokenAuthentication: bool)

  /** The flags, read in the order of the source; the first conversion that throws escapes. */
  function ReadManagementSettings(properties: Properties): (r: Result<ManagementSettings, ConversionError>)
    ensures r.Success? <==>
      ReadFlag(properties, "IgnoreSSLWarning").Success? && ReadFlag(properties, "UseTokenAuthentication").Success?
    ensures r.Success? ==> r.value.ignoreSslWarning == ReadFlag(properties, "IgnoreSSLWarning").value
    ensures r.Success? ==> r.value.useTokenAuthentication == ReadFlag(properties, "UseTokenAuthentication").value
    ensures r.Failure? ==> r.error == FormatError
  {
    var ignoreSsl :- ReadFlag(properties, "IgnoreSSLWarning");
    var useToken :- ReadFlag(properties, "UseTokenAuthentication");
    Success(ManagementSettings(ignoreSsl, useToken))
  }

  /** The store properties that describe `settings`, written as `bool.ToString` writes them. */
  function ManagementProperties(settings: ManagementSettings): Properties {
    map[
      "IgnoreSSLWarning" := BoolToString(settings.ignoreSslWarning),
      "UseTokenAuthentication" := BoolToString(settings.useTokenAuthentication)]
  }

  /** Reading the written properties gives back the settings. */
  lemma ManagementSettingsRoundTrip(settings: ManagementSettings)
    ensures ReadManagementSettings(ManagementProperties(settings)) == Success(settings)
  {
    var properties := ManagementProperties(settings);
    ReadFlagRoundTrip(properties, "IgnoreSSLWarning", settings.ignoreSslWarning);
    ReadFlagRoundTrip(properties, "UseTokenAuthentication", settings.useTokenAuthentication);
  }

  /**
   * A store that turns on token authentication under the reenrollment key
   * "UseTokenAuth" alone leaves a management job on basic authentication.
   */
  lemma ReenrollmentTokenKeyNotRead(properties: Properties)
    requires "UseTokenAuth" in properties && properties["UseTokenAuth"] == BoolToString(true)
    requires "UseTokenAuthentication" !in properties
    requires ReadFlag(properties, "IgnoreSSLWarning").Success?
    ensures ReadManagementSettings(properties).Success?
    ensures !ReadManagementSettings(properties).value.useTokenAuthentication
  {
  }

  /** The client construction arguments. */
  datatype ConnectRequest = ConnectRequest(
    clientMachine: string,
    userName: string,
    password: string,
    useTokenAuthentication: bool,
    ignoreSslWarning: bool)

  /** The `AddReplaceCertificate` arguments. */
  datatype AddRequest = AddRequest(
    storePath: string,
    alias: string,
    contents: string,
    privateKeyPassword: string,
    overwrite: bool)

  /** Constructing the client: nothing, or the exception thrown. */
  type ConnectCall = ConnectRequest -> Result<(), string>

  /** Adding or replacing the certificate: nothing, or the exception thrown. */
  type AddCall = AddRequest -> Result<(), string>

  /** What the job returned, and the calls it made. */
  datatype ManagementRun = ManagementRun(outcome: JobOutcome, connected: Option<ConnectRequest>, added: Option<AddRequest>)

  function ConnectRequestFor(job: ManagementJob, settings: ManagementSettings): ConnectRequest {
    ConnectRequest(job.clientMachine, job.serverUserName, job.serverPassword,
                   settings.useTokenAuthentication, settings.ignoreSslWarning)
  }

  function AddRequestFor(job: ManagementJob): AddRequest {
    AddRequest(job.storePath, job.certificate.alias, job.certificate.contents,
               job.certificate.privateKeyPassword, job.overwrite)
  }

  function Unsupported(job: ManagementJob, name: string): FailureMessage {
    Text(SitePrefix(job.storePath, job.clientMachine) + ": Unsupported operation: " + name)
  }

  function ExceptionFailure(job: ManagementJob, cause: string): JobOutcome {
    FailedWith(job.jobHistoryId, Flattened(SitePrefix(job.storePath, job.clientMachine) + ":", cause))
  }

  /**
   * `Management.ProcessJob` as written: an exception from constructing the
   * client or from the add is caught, logged and dropped, and the job
   * falls through to Success.
   */
  function ProcessJobAsWritten(job: ManagementJob, connect: ConnectCall, add: AddCall): (run: ManagementRun)
    ensures run.outcome.Escaped? <==> ReadManagementSettings(job.properties).Failure?
    ensures run.outcome.Returned? ==> run.outcome.result.jobHistoryId == job.jobHistoryId
    ensures run.outcome.Returned? ==>
      run.connected == Some(ConnectRequestFor(job, ReadManagementSettings(job.properties).value))
    ensures run.outcome.Returned? ==>
      (run.outcome.result.status == JobFailure <==>
         job.operation.Other? && connect(run.connected.value).Success?)
    ensures run.outcome.Returned? && run.outcome.result.status == JobFailure ==>
      run.outcome.result.failureMessage == Some(Unsupported(job, job.operation.name))
    ensures run.outcome.Returned? && run.outcome.result.status == JobSuccess ==>
      run.outcome.result.failureMessage.None?
    ensures run.added.Some? <==> run.connected.Some? && connect(run.connected.value).Success? && job.operation == Add
    ensures run.added.Some? ==> run.added.value == AddRequestFor(job)
  {
    match ReadManagementSettings(job.properties)
    case Failure(error) => ManagementRun(Escaped(error), None, None)
    case Success(settings) =>
      var request := ConnectRequestFor(job, settings);
      match connect(request)
      case Failure(_) => ManagementRun(Succeeded(job.jobHistoryId), Some(request), None)
      case Success(_) =>
        match job.operation
        case Add =>
          var added := AddRequestFor(job);
          ManagementRun(Succeeded(job.jobHistoryId), Some(request), Some(added))
        case Remove => ManagementRun(Succeeded(job.jobHistoryId), Some(request), None)
        case Other(name) => ManagementRun(FailedWith(job.jobHistoryId, Unsupported(job, name)), Some(request), None)
  }

  /** As written, an add that throws is reported to the platform as a success. */
  lemma FailedAddReportsSuccessAsWritten(job: ManagementJob, connect: ConnectCall, add: AddCall)
    requires ReadManagementSettings(job.properties).Success?
    requires job.operation == Add
    requires connect(ConnectRequestFor(job, ReadManagementSettings(job.properties).value)).Success?
    requires add(AddRequestFor(job)).Failure?
    ensures ProcessJobAsWritten(job, connect, add).outcome == Succeeded(job.jobHistoryId)
    ensures ProcessJob(job, connect, add).outcome == ExceptionFailure(job, add(AddRequestFor(job)).error)
  {
  }

  /**
   * `Management.ProcessJob` with the catch block reporting the exception the
   * way `Reenrollment.ProcessJob` does: a Failure whose message is the
   * flattened exception behind the site prefix.
   */
  function ProcessJob(job: ManagementJob, connect: ConnectCall, add: AddCall): (run: ManagementRun)
    ensures run.outcome.Escaped? <==> ReadManagementSettings(job.properties).Failure?
    ensures run.outcome.Escaped? ==> run == ManagementRun(Escaped(FormatError), None, None)
    ensures run.outcome.Returned? ==> run.outcome.result.jobHistoryId == job.jobHistoryId
    ensures run.outcome.Returned? ==>
      run.connected == Some(ConnectRequestFor(job, ReadManagementSettings(job.properties).value))
    ensures run.connected.Some? && connect(run.connected.value).Failure? ==>
      run == ManagementRun(ExceptionFailure(job, connect(run.connected.value).error), run.connected, None)
    ensures run.added.Some? <==> run.connected.Some? && connect(run.connected.value).Success? && job.operation == Add
    ensures run.added.Some? ==> run.added.value == AddRequestFor(job)
    ensures run.added.Some? ==>
      run.outcome == (match add(run.added.value)
                      case Success(_) => Succeeded(job.jobHistoryId)
                      case Failure(e) => ExceptionFailure(job, e))
    ensures run.connected.Some? && connect(run.connected.value).Success? && job.operation == Remove ==>
      run.outcome == Succeeded(job.jobHistoryId)
    ensures run.connected.Some? && connect(run.connected.value).Success? && job.operation.Other? ==>
      run.outcome == FailedWith(job.jobHistoryId, Unsupported(job, job.operation.name))
  {
    match ReadManagementSettings(job.properties)
    case Failure(error) => ManagementRun(Escaped(error), None, None)
    case Success(settings) =>
      var request := ConnectRequestFor(job, settings);
      match connect(request)
      case Failure(e) => ManagementRun(ExceptionFailure(job, e), Some(request), None)
      case Success(_) =>
        match job.operation
        case Add =>
          var added := AddRequestFor(job);
          (match add(added)
           case Success(_) => ManagementRun(Succeeded(job.jobHistoryId), Some(request), Some(added))
           case Failure(e) => ManagementRun(ExceptionFailure(job, e), Some(request), Some(added)))
        case Remove => ManagementRun(Succeeded(job.jobHistoryId), Some(request), None)
        case Other(name) => ManagementRun(FailedWith(job.jobHistoryId, Unsupported(job, name)), Some(request), None)
  }

  /** When nothing throws, the written job and the corrected one do the same thing. */
  lemma AsWrittenAgreesWithoutExceptions(job: ManagementJob, connect: ConnectCall, add: AddCall)
    requires ReadManagementSettings(job.properties).Success? ==>
      && connect(ConnectRequestFor(job, ReadManagementSettings(job.properties).value)).Success?
      && add(AddRequestFor(job)).Success?
    ensures ProcessJobAsWritten(job, connect, add) == ProcessJob(job, connect, add)
  {
  }
}

=== FILE: numerals.dfy ===
/**
 * Integers as the C# code sees them: 32-bit `int` with unchecked (wrapping)
 * arithmetic, and the invariant-culture decimal text of an integer.
 */
module Numerals {
  import opened Wrappers

  const Int32Min: int := -0x8000_0000
  const Int32Max: int := 0x7FFF_FFFF

  /** The values of a C# `int`. */
  type Int32 = x: int | -0x8000_0000 <= x <= 0x7FFF_FFFF

  /** The result of unchecked C# `int` arithmetic whose exact value is `x`. */
  function Wrap32(x: int): (r: Int32)
    ensures Int32Min <= x <= Int32Max ==> r == x
  {
    var m := x % 0x1_0000_0000;
    if m <= Int32Max then m else m - 0x1_0000_0000
  }

  /**
   * The wrapped value differs from the exact one by a multiple of 2^32, so it
   * is the one Int32 that keeps the low 32 bits of the exact value.
   */
  lemma Wrap32Congruent(x: int)
    ensures (Wrap32(x) - x) % 0x1_0000_0000 == 0
  {
  }

  /** Values that agree modulo 2^32 wrap to the same Int32. */
  lemma Wrap32OfCongruent(x: int, y: int)
    requires (x - y) % 0x1_0000_0000 == 0
    ensures Wrap32(x) == Wrap32(y)
  {
    var q := (x - y) / 0x1_0000_0000;
    var d, m := y / 0x1_0000_0000, y % 0x1_0000_0000;
    assert x == (d + q) * 0x1_0000_0000 + m && 0 <= m < 0x1_0000_0000;
    assert x % 0x1_0000_0000 == m;
  }

  /** Wrapping an operand before multiplying does not change the wrapped product. */
  lemma Wrap32Product(a: int, c: int)
    ensures Wrap32(Wrap32(a) * c) == Wrap32(a * c)
  {
    var w := Wrap32(a);
    Wrap32Congruent(a);
    var k := (w - a) / 0x1_0000_0000;
    assert w - a == k * 0x1_0000_0000;
    assert w * c - a * c == (w - a) * c;
    assert w * c - a * c == (k * c) * 0x1_0000_0000;
    Wrap32OfCongruent(w * c, a * c);
  }

  predicate IsDigit(c: char) {
    '0' <= c <= '9'
  }

  predicate AllDigits(s: string) {
    forall i :: 0 <= i < |s| ==> IsDigit(s[i])
  }

  function DigitChar(d: nat): (c: char)
    requires d < 10
    ensures IsDigit(c)
  {
    ['0', '1', '2', '3', '4', '5', '6', '7', '8', '9'][d]
  }

  function DigitValue(c: char): (d: nat)
    requires IsDigit(c)
    ensures d < 10
  {
    (c as int - '0' as int) as nat
  }

  /** The decimal digits of `n`, most significant first, without leading zeros. */
  function NatToString(n: nat): (s: string)
    ensures |s| > 0 && AllDigits(s)
    ensures |s| > 1 ==> s[0] != '0'
  {
    if n < 10 then [DigitChar(n)] else NatToString(n / 10) + [DigitChar(n % 10)]
  }

  /** `int.ToString()`: a minus sign for negative values, then the digits. */
  function IntToString(n: int): (s: string)
    ensures n >= 0 ==> s == NatToString(n)
    ensures n < 0 ==> s == "-" + NatToString(-n)
  {
    if n < 0 then "-" + NatToString(-n) else NatToString(n)
  }

  /** The value of a run of decimal digits (zero for the empty run). */
  function DigitsValue(s: string): nat
    requires AllDigits(s)
  {
    if |s| == 0 then 0 else DigitsValue(s[..|s| - 1]) * 10 + DigitValue(s[|s| - 1])
  }

  /** Reads back the text `IntToString` produces: an optional `-`, then at least one digit. */
  function ParseInteger(s: string): Option<int> {
    if |s| > 1 && s[0] == '-' && AllDigits(s[1..]) then Some(0 - DigitsValue(s[1..]))
    else if |s| > 0 && AllDigits(s) then Some(DigitsValue(s) as int)
    else None
  }

  lemma {:induction false} DigitsValueOfNatToString(n: nat)
    ensures DigitsValue(NatToString(n)) == n
  {
    var s := NatToString(n);
    if n >= 10 {
      assert s[..|s| - 1] == NatToString(n / 10);
      DigitsValueOfNatToString(n / 10);
      assert DigitValue(DigitChar(n % 10)) == n % 10;
    } else {
      assert DigitValue(DigitChar(n)) == n;
    }
  }

  /** A minus sign before a run of digits reads as the negated value of the run. */
  lemma ParseNegated(d: string)
    requires |d| > 0 && AllDigits(d)
    ensures ParseInteger("-" + d) == Some(0 - DigitsValue(d))
  {
    assert ("-" + d)[1..] == d;
  }

  /** The text of a negative integer, "-" and the digits of its magnitude, reads back. */
  lemma NegativeRoundTrip(m: nat)
    ensures ParseInteger("-" + NatToString(m)) == Some(0 - m)
  {
    ParseNegated(NatToString(m));
    DigitsValueOfNatToString(m);
  }

  /** A non-negative integer prints as digits alone, with no sign to mistake. */
  lemma NonNegativeRoundTrip(n: nat)
    ensures ParseInteger(IntToString(n)) == Some(n)
  {
    var s := IntToString(n);
    DigitsValueOfNatToString(n);
    assert s[0] != '-' by { assert IsDigit(s[0]); }
  }

  /** Printing an integer and reading it back yields the integer. */
  lemma IntToStringRoundTrip(n: int)
    ensures ParseInteger(IntToString(n)) == Some(n)
  {
    if n < 0 {
      NegativeRoundTrip(-n);
      assert IntToString(n) == "-" + NatToString(-n);
    } else {
      NonNegativeRoundTrip(n);
    }
  }
}

=== FILE: pager.dfy ===
/**
 * The certificate listing of `F5BigIQClient.GetCertificates`: pages of 50
 * certificates are requested with a growing skip until the server returns
 * an empty page or reports that the current page is the last one.
 *
 * The server is a parameter: a function from the page request to the
 * already-decoded page, or to the message of the exception the request
 * (transport, status check or JSON decoding) threw.
 */
module Pager {
  import opened Wrappers
  import opened Numerals

  const CertificatesPerPage: Int32 := 50
  const CertificateListPath := "/mgmt/cm/adc-core/working-config/sys/file/ssl-cert"
  const TopKey := "?top="
  const SkipKey := "&$skip="

  /** The largest page index whose skip does not wrap around. */
  const LastUnwrappedIndex: int := 42_949_673

  /** One entry of the `items` array of a listing page. */
  datatype CertificateItem = CertificateItem(id: string, alias: string, fileReference: string, selfLink: string)

  /** A decoded listing page. */
  datatype CertificatePage = CertificatePage(
    pageIndex: Int32,
    totalPages: Int32,
    totalItems: Int32,
    items: seq<CertificateItem>)

  /** The `top` and `skip` query parameters of one page request. */
  datatype PageRequest = PageRequest(top: Int32, skip: Int32)

  type Server = PageRequest -> Result<CertificatePage, string>

  /** The request for the page with the given index, in 32-bit unchecked arithmetic. */
  function RequestFor(index: Int32): (r: PageRequest)
    ensures r.top == CertificatesPerPage
    ensures r.skip == Wrap32((index - 1) * CertificatesPerPage)
    ensures 1 <= index <= LastUnwrappedIndex ==> r.skip == (index - 1) * CertificatesPerPage
    ensures index == 1 ==> r.skip == 0
  {
    Wrap32Product(index - 1, CertificatesPerPage);
    PageRequest(CertificatesPerPage, Wrap32(Wrap32(index - 1) * CertificatesPerPage))
  }

  /** The resource path of a listing request: `top` and `skip` as `int.ToString` writes them. */
  function ListingResource(request: PageRequest): string {
    CertificateListPath + TopKey + IntToString(request.top) + SkipKey + IntToString(request.skip)
  }

  /**
   * The resource path for the page with the given index: page size 50, and
   * the skip as unchecked `(index - 1) * 50`, in decimal.
   */
  function ResourceFor(index: Int32): (resource: string)
    ensures resource == CertificateListPath + "?top=50&$skip=" + IntToString(Wrap32((index - 1) * CertificatesPerPage))
  {
    ListingResourceText(RequestFor(index));
    ListingResource(RequestFor(index))
  }

  lemma ListingResourceText(request: PageRequest)
    requires request.top == CertificatesPerPage
    ensures ListingResource(request) == CertificateListPath + "?top=50&$skip=" + IntToString(request.skip)
  {
    assert IntToString(request.top) == "50";
    assert TopKey + "50" + SkipKey == "?top=50&$skip=";
  }

  /** The position of the first `c` in `s`, or `|s|` when there is none. */
  function IndexOf(s: string, c: char): (k: nat)
    ensures k <= |s|
    ensures k < |s| ==> s[k] == c
    ensures forall i :: 0 <= i < k ==> s[i] != c
  {
    if |s| == 0 || s[0] == c then 0 else 1 + IndexOf(s[1..], c)
  }

  /** The `top` and `skip` values a server reads from a listing resource path. */
  function ParsePageQuery(resource: string): Option<PageRequest> {
    var head := CertificateListPath + TopKey;
    if !(head <= resource) then None
    else
      var rest := resource[|head|..];
      var k := IndexOf(rest, '&');
      if !(SkipKey <= rest[k..]) then None
      else
        match (ParseInteger(rest[..k]), ParseInteger(rest[k + |SkipKey|..]))
        case (Some(top), Some(skip)) =>
          if Int32Min <= top <= Int32Max && Int32Min <= skip <= Int32Max
          then Some(PageRequest(top, skip)) else None
        case _ => None
  }

  /** The query after the path: the page size "50", the skip key, then the skip. */
  lemma QuerySplit(rest: string, skip: string)
    requires rest == "50" + SkipKey + skip
    ensures IndexOf(rest, '&') == 2
    ensures rest[..2] == "50"
    ensures SkipKey <= rest[2..]
    ensures rest[2 + |SkipKey|..] == skip
  {
    assert rest[0] == '5' && rest[1] == '0' && rest[2] == '&';
    assert rest[1..][1..] == rest[2..];
    assert IndexOf(rest[2..], '&') == 0;
    assert rest[2..] == SkipKey + skip;
  }

  /** A listing resource path carries exactly the page size 50 and the skip of its request. */
  lemma ListingResourceRoundTrip(request: PageRequest)
    requires request.top == CertificatesPerPage
    ensures ParsePageQuery(ListingResource(request)) == Some(request)
  {
    var head := CertificateListPath + TopKey;
    var skip := IntToString(request.skip);
    var resource := ListingResource(request);
    assert IntToString(request.top) == "50";
    assert resource == head + ("50" + SkipKey + skip);
    var rest := resource[|head|..];
    assert rest == "50" + SkipKey + skip;
    QuerySplit(rest, skip);
    IntToStringRoundTrip(request.top);
    IntToStringRoundTrip(request.skip);
  }

  /** The resource path carries exactly the page size and skip of the request. */
  lemma ResourceForRoundTrip(index: Int32)
    ensures ParsePageQuery(ResourceFor(index)) == Some(RequestFor(index))
  {
    ListingResourceRoundTrip(RequestFor(index));
  }

  /** The page is non-empty and not reported as the last one, so the listing goes on. */
  predicate Continues(page: CertificatePage) {
    |page.items| > 0 && page.pageIndex != page.totalPages
  }

  /** The index requested after `page`: the reported index plus one, not a local counter. */
  function NextIndex(page: CertificatePage): Int32 {
    Wrap32(page.pageIndex + 1)
  }

  /** The outcome of a listing: all items, the first request's exception, or not finished yet. */
  datatype Listing = Listed(items: seq<CertificateItem>) | RequestFailed(message: string) | Unfinished

  function Prepend(items: seq<CertificateItem>, listing: Listing): Listing {
    match listing
    case Listed(rest) => Listed(items + rest)
    case _ => listing
  }

  /**
   * The listing from page `index` on, following the server for at most `fuel`
   * requests. The source has no such cap: `Unfinished` stands for a server
   * that keeps the loop going beyond `fuel` pages.
   */
  function Enumerate(server: Server, index: Int32, fuel: nat): (r: Listing)
    ensures r.Listed? ==> fuel > 0 && server(RequestFor(index)).Success?
    decreases fuel
  {
    if fuel == 0 then Unfinished
    else
      match server(RequestFor(index))
      case Failure(message) => RequestFailed(message)
      case Success(page) =>
        if |page.items| == 0 then Listed([])
        else if page.totalPages == page.pageIndex then Listed(page.items)
        else Prepend(page.items, Enumerate(server, NextIndex(page), fuel - 1))
  }

  /** One page request and the page the server answered with. */
  datatype Visit = Visit(index: Int32, page: CertificatePage)

  /**
   * A complete successful listing from page `start`: each visited page answers
   * the request for its index, every page but the last continues the listing
   * and is followed by the page its reported index points to, and the last one
   * ends it.
   */
  ghost predicate IsRunFrom(server: Server, start: Int32, visits: seq<Visit>) {
    && |visits| > 0
    && visits[0].index == start
    && (forall i :: 0 <= i < |visits| ==> server(RequestFor(visits[i].index)) == Success(visits[i].page))
    && (forall i :: 0 <= i < |visits| - 1 ==>
          Continues(visits[i].page) && visits[i + 1].index == NextIndex(visits[i].page))
    && !Continues(visits[|visits| - 1].page)
  }

  /** The items of the visited pages, in visiting order. */
  function Collected(visits: seq<Visit>): seq<CertificateItem> {
    if |visits| == 0 then [] else visits[0].page.items + Collected(visits[1..])
  }

  /** Every run within the fuel is what the listing returns. */
  lemma {:induction false} RunIsListed(server: Server, start: Int32, visits: seq<Visit>, fuel: nat)
    requires IsRunFrom(server, start, visits)
    requires |visits| <= fuel
    ensures Enumerate(server, start, fuel) == Listed(Collected(visits))
    decreases |visits|
  {
    var page := visits[0].page;
    assert server(RequestFor(start)) == Success(page);
    if |visits| == 1 {
      assert Collected(visits) == page.items + Collected([]);
    } else {
      var tail := visits[1..];
      assert Continues(page);
      assert IsRunFrom(server, NextIndex(page), tail) by {
        assert forall i :: 0 <= i < |tail| ==> tail[i] == visits[i + 1];
      }
      RunIsListed(server, NextIndex(page), tail, fuel - 1);
    }
  }

  /** Every finished listing comes from a run within the fuel. */
  lemma {:induction false} ListedHasRun(server: Server, start: Int32, fuel: nat) returns (visits: seq<Visit>)
    requires Enumerate(server, start, fuel).Listed?
    ensures IsRunFrom(server, start, visits)
    ensures |visits| <= fuel
    ensures Enumerate(server, start, fuel).items == Collected(visits)
    decreases fuel
  {
    var page := server(RequestFor(start)).value;
    if !Continues(page) {
      visits := [Visit(start, page)];
      assert Collected(visits) == page.items + Collected([]);
    } else {
      var tail := ListedHasRun(server, NextIndex(page), fuel - 1);
      visits := [Visit(start, page)] + tail;
      assert visits[1..] == tail;
      assert forall i :: 1 <= i < |visits| ==> visits[i] == tail[i - 1];
    }
  }

  /**
   * A listing that finishes is exactly the concatenation of the items of the
   * pages it visits: the run from page 1 is the only one, whatever the fuel.
   */
  lemma ListingIsRun(server: Server, fuel: nat, visits: seq<Visit>)
    requires IsRunFrom(server, 1, visits)
    ensures Enumerate(server, 1, fuel) == (if |visits| <= fuel then Listed(Collected(visits)) else Unfinished)
  {
    if |visits| <= fuel {
      RunIsListed(server, 1, visits, fuel);
    } else {
      RunTooLong(server, 1, visits, fuel);
    }
  }

  lemma {:induction false} RunTooLong(server: Server, start: Int32, visits: seq<Visit>, fuel: nat)
    requires IsRunFrom(server, start, visits)
    requires |visits| > fuel
    ensures Enumerate(server, start, fuel) == Unfinished
    decreases fuel
  {
    if fuel > 0 {
      var page := visits[0].page;
      assert server(RequestFor(start)) == Success(page);
      var tail := visits[1..];
      assert Continues(page);
      assert IsRunFrom(server, NextIndex(page), tail) by {
        assert forall i :: 0 <= i < |tail| ==> tail[i] == visits[i + 1];
      }
      RunTooLong(server, NextIndex(page), tail, fuel - 1);
    }
  }

  /**
   * One step of the listing: an empty page ends it and adds nothing, a
   * non-empty page reported as the last one is added and ends it, any other
   * page is added before the listing from the reported index plus one.
   */
  lemma PageStep(server: Server, index: Int32, fuel: nat, page: CertificatePage)
    requires fuel > 0 && server(RequestFor(index)) == Success(page)
    ensures |page.items| == 0 ==> Enumerate(server, index, fuel) == Listed([])
    ensures |page.items| > 0 && page.pageIndex == page.totalPages ==>
      Enumerate(server, index, fuel) == Listed(page.items)
    ensures Continues(page) ==>
      Enumerate(server, index, fuel) == Prepend(page.items, Enumerate(server, Wrap32(page.pageIndex + 1), fuel - 1))
  {
  }

  lemma PrependTwice(a: seq<CertificateItem>, b: seq<CertificateItem>, listing: Listing)
    ensures Prepend(a, Prepend(b, listing)) == Prepend(a + b, listing)
  {
    if listing.Listed? {
      assert a + (b + listing.items) == a + b + listing.items;
    }
  }

  /** The loop's invariants carry over from a page that continues the listing to the next page index. */
  lemma ContinueStep(server: Server, index: Int32, fuel: nat, page: CertificatePage,
                     collected: seq<CertificateItem>, whole: Listing)
    requires fuel > 0 && server(RequestFor(index)) == Success(page) && Continues(page)
    requires Enumerate(server, index, fuel) != Unfinished
    requires whole == Prepend(collected, Enumerate(server, index, fuel))
    ensures Enumerate(server, NextIndex(page), fuel - 1) != Unfinished
    ensures whole == Prepend(collected + page.items, Enumerate(server, NextIndex(page), fuel - 1))
  {
    PageStep(server, index, fuel, page);
    PrependTwice(collected, page.items, Enumerate(server, NextIndex(page), fuel - 1));
  }

  /** In a run only the last page may be empty or report itself last, and the first request has skip 0. */
  lemma RunShape(server: Server, visits: seq<Visit>)
    requires IsRunFrom(server, 1, visits)
    ensures RequestFor(visits[0].index) == PageRequest(CertificatesPerPage, 0)
    ensures forall i :: 0 <= i < |visits| - 1 ==> |visits[i].page.items| > 0
    ensures forall i :: 0 <= i < |visits| - 1 ==> visits[i].page.pageIndex != visits[i].page.totalPages
    ensures |visits[|visits| - 1].page.items| == 0 ||
            visits[|visits| - 1].page.pageIndex == visits[|visits| - 1].page.totalPages
    ensures forall i :: 0 <= i < |visits| ==> RequestFor(visits[i].index).top == CertificatesPerPage
  {
  }

  /**
   * A server whose reported index, for every continuing page up to `bound`,
   * is at least the requested index and below `bound`.
   */
  ghost predicate AdvancesBelow(server: Server, bound: Int32) {
    forall k: Int32 :: 1 <= k <= bound && server(RequestFor(k)).Success? && Continues(server(RequestFor(k)).value) ==>
      k <= server(RequestFor(k)).value.pageIndex < bound
  }

  /** Such a server ends the listing within `bound - start + 1` requests. */
  lemma {:induction false} AdvancingServerFinishes(server: Server, bound: Int32, start: Int32)
    requires AdvancesBelow(server, bound)
    requires 1 <= start <= bound
    ensures Enumerate(server, start, bound - start + 1) != Unfinished
    decreases bound - start
  {
    var response := server(RequestFor(start));
    if response.Success? && Continues(response.value) {
      var next := NextIndex(response.value);
      assert next == response.value.pageIndex + 1;
      assert start < next <= bound;
      AdvancingServerFinishes(server, bound, next);
      FuelMonotone(server, next, bound - next + 1, bound - start);
    }
  }

  /** More fuel does not change a listing that already finished. */
  lemma {:induction false} FuelMonotone(server: Server, index: Int32, fuel: nat, more: nat)
    requires Enumerate(server, index, fuel) != Unfinished
    requires fuel <= more
    ensures Enumerate(server, index, more) == Enumerate(server, index, fuel)
    decreases fuel
  {
    var response := server(RequestFor(index));
    if response.Success? && Continues(response.value) {
      var next := NextIndex(response.value);
      assert Enumerate(server, next, fuel - 1) != Unfinished;
      FuelMonotone(server, next, fuel - 1, more - 1);
    }
  }

  /** A server that always reports page 1 of 2 with one item. */
  function StuckServer(item: CertificateItem): Server {
    request => Success(CertificatePage(1, 2, 2, [item]))
  }

  /** Against it the listing never finishes: the loop has no cap of its own. */
  lemma {:induction false} StuckServerNeverFinishes(item: CertificateItem, index: Int32, fuel: nat)
    ensures Enumerate(StuckServer(item), index, fuel) == Unfinished
    decreases fuel
  {
    if fuel > 0 {
      StuckServerNeverFinishes(item, 2, fuel - 1);
    }
  }

  /**
   * `GetCertificates`: the do-while loop of the source. `fuel` is a number of
   * requests within which the server ends the listing; the loop has no cap.
   */
  method GetCertificates(server: Server, ghost fuel: nat) returns (r: Result<seq<CertificateItem>, string>)
    requires Enumerate(server, 1, fuel) != Unfinished
    ensures r.Success? <==> Enumerate(server, 1, fuel).Listed?
    ensures r.Success? ==> r.value == Enumerate(server, 1, fuel).items
    ensures r.Failure? ==> Enumerate(server, 1, fuel) == RequestFailed(r.error)
  {
    var currentPageIndex: Int32 := 1;
    var certificates: seq<CertificateItem> := [];
    ghost var remaining := fuel;
    while true
      invariant Enumerate(server, currentPageIndex, remaining) != Unfinished
      invariant Enumerate(server, 1, fuel) == Prepend(certificates, Enumerate(server, currentPageIndex, remaining))
      decreases remaining
    {
      var response := server(RequestFor(currentPageIndex));
      if response.Failure? {
        return Failure(response.error);
      }
      var page := response.value;
      if |page.items| == 0 {
        PageStep(server, currentPageIndex, remaining, page);
        break;
      }
      ghost var before := certificates;
      certificates := certificates + page.items;
      if page.totalPages == page.pageIndex {
        PageStep(server, currentPageIndex, remaining, page);
        break;
      }
      ContinueStep(server, currentPageIndex, remaining, page, before, Enumerate(server, 1, fuel));
      currentPageIndex := NextIndex(page);
      remaining := remaining - 1;
    }
    return Success(certificates);
  }
}

=== FILE: reenrollment.dfy ===
/**
 * `Reenrollment.ProcessJob`: read the store properties into typed settings,
 * refuse a blank alias, then ask the client to generate a CSR.
 */
module Reenrollment {
  import opened Wrappers
  import opened Numerals
  import opened Conversions
  import opened Jobs

  const DefaultLoginProvider := "tmos"
  const AliasMissing := "Error performing reenrollment.  Alias blank or does not exist."

  /** A reenrollment job: store location, job id, resolved server credentials, store properties. */
  datatype ReenrollmentJob = ReenrollmentJob(
    clientMachine: string,
    storePath: string,
    jobHistoryId: int,
    serverUserName: string,
    serverPassword: string,
    properties: Properties)

  /** The typed settings read from the store properties. */
  datatype Settings = Settings(
    deployCertificateOnRenewal: bool,
    ignoreSslWarning: bool,
    useTokenAuth: bool,
    loginProviderName: string,
    keyType: string,
    keySize: Option<Int32>,
    subjectText: string,
    sans: string)

  /**
   * The key size as written: the conditional mixes `string.Empty` with a
   * dynamically typed `Convert.ToInt32` result, so it is dynamic, and
   * assigning an empty string to `int?` fails at run time.
   */
  function ReadKeySizeAsWritten(properties: Properties): (r: Result<Option<Int32>, ConversionError>)
    ensures Given(properties, "keySize").None? ==> r == Failure(BinderError)
  {
    match Given(properties, "keySize")
    case None => Failure(BinderError)
    case Some(text) =>
      var size :- ToInt32(text);
      Success(Some(size))
  }

  /** The key size: absent when not given, otherwise `Convert.ToInt32` of the value. */
  function ReadKeySize(properties: Properties): (r: Result<Option<Int32>, ConversionError>)
    ensures Given(properties, "keySize").None? ==> r == Success(None)
    ensures Given(properties, "keySize").Some? ==>
      (r.Success? <==> ToInt32(properties["keySize"]).Success?)
    ensures r.Success? && Given(properties, "keySize").Some? ==>
      r.value == Some(ToInt32(properties["keySize"]).value)
    ensures r.Failure? ==> r.error == ToInt32(properties["keySize"]).error
  {
    match Given(properties, "keySize")
    case None => Success(None)
    case Some(text) =>
      var size :- ToInt32(text);
      Success(Some(size))
  }

  /** Where the written code and the intended reading part: a store without a key size. */
  lemma MissingKeySizeEscapesAsWritten(properties: Properties)
    requires Given(properties, "keySize").None?
    ensures ReadKeySizeAsWritten(properties).Failure?
    ensures ReadKeySize(properties) == Success(None)
  {
  }

  /** The three flags convert. */
  predicate FlagsConvert(properties: Properties) {
    && ReadFlag(properties, "DeployCertificateOnRenewal").Success?
    && ReadFlag(properties, "IgnoreSSLWarning").Success?
    && ReadFlag(properties, "UseTokenAuth").Success?
  }

  /** The three flags and the key size all convert. */
  predicate Convertible(properties: Properties) {
    && FlagsConvert(properties)
    && (Given(properties, "keySize").Some? ==> ToInt32(properties["keySize"]).Success?)
  }

  /** The settings, read in the order of the source; the first conversion that throws escapes. */
  function ReadSettings(properties: Properties): (r: Result<Settings, ConversionError>)
    ensures r.Success? <==> Convertible(properties)
    ensures r.Success? ==> r.value.useTokenAuth == ReadFlag(properties, "UseTokenAuth").value
    ensures r.Success? ==> r.value.ignoreSslWarning == ReadFlag(properties, "IgnoreSSLWarning").value
    ensures r.Success? ==> r.value.loginProviderName == Given(properties, "LoginProviderName").GetOr(DefaultLoginProvider)
    ensures r.Success? ==> r.value.keySize.Some? == Given(properties, "keySize").Some?
    ensures r.Success? ==>
      && r.value.deployCertificateOnRenewal == ReadFlag(properties, "DeployCertificateOnRenewal").value
      && r.value.keyType == Given(properties, "keyType").GetOr("")
      && r.value.keySize == ReadKeySize(properties).value
      && r.value.subjectText == Given(properties, "subjectText").GetOr("")
      && r.value.sans == Given(properties, "SANs").GetOr("")
    ensures r.Failure? && !FlagsConvert(properties) ==> r.error == FormatError
    ensures r.Failure? && FlagsConvert(properties) ==>
      "keySize" in properties && r.error == ToInt32(properties["keySize"]).error
  {
    var deploy :- ReadFlag(properties, "DeployCertificateOnRenewal");
    var ignoreSsl :- ReadFlag(properties, "IgnoreSSLWarning");
    var useToken :- ReadFlag(properties, "UseTokenAuth");
    var loginProvider := ReadText(properties, "LoginProviderName", DefaultLoginProvider);
    var keyType := ReadText(properties, "keyType", "");
    var keySize :- ReadKeySize(properties);
    var subjectText := ReadText(properties, "subjectText", "");
    var sans := ReadText(properties, "SANs", "");
    Success(Settings(deploy, ignoreSsl, useToken, loginProvider, keyType, keySize, subjectText, sans))
  }

  /** The store properties that describe `settings`, written as `ToString` writes them. */
  function StoreProperties(settings: Settings): Properties {
    var written := map[
      "DeployCertificateOnRenewal" := BoolToString(settings.deployCertificateOnRenewal),
      "IgnoreSSLWarning" := BoolToString(settings.ignoreSslWarning),
      "UseTokenAuth" := BoolToString(settings.useTokenAuth),
      "LoginProviderName" := settings.loginProviderName,
      "keyType" := settings.keyType,
      "subjectText" := settings.subjectText,
      "SANs" := settings.sans];
    match settings.keySize
    case None => written
    case Some(size) => written["keySize" := IntToString(size)]
  }

  /** The settings are read field by field: agreeing fields give the same settings. */
  lemma ReadSettingsOf(properties: Properties, settings: Settings)
    requires ReadFlag(properties, "DeployCertificateOnRenewal") == Success(settings.deployCertificateOnRenewal)
    requires ReadFlag(properties, "IgnoreSSLWarning") == Success(settings.ignoreSslWarning)
    requires ReadFlag(properties, "UseTokenAuth") == Success(settings.useTokenAuth)
    requires ReadText(properties, "LoginProviderName", DefaultLoginProvider) == settings.loginProviderName
    requires ReadText(properties, "keyType", "") == settings.keyType
    requires ReadKeySize(properties) == Success(settings.keySize)
    requires ReadText(properties, "subjectText", "") == settings.subjectText
    requires ReadText(properties, "SANs", "") == settings.sans
    ensures ReadSettings(properties) == Success(settings)
  {
  }

  /** A key size written the way `int.ToString` writes it is read back as itself. */
  lemma ReadKeySizeRoundTrip(properties: Properties, size: Int32)
    requires "keySize" in properties && properties["keySize"] == IntToString(size)
    ensures ReadKeySize(properties) == Success(Some(size))
  {
    ToInt32RoundTrip(size);
  }

  lemma TextSettingsRoundTrip(settings: Settings)
    requires settings.loginProviderName != ""
    ensures var properties := StoreProperties(settings);
      && ReadText(properties, "LoginProviderName", DefaultLoginProvider) == settings.loginProviderName
      && ReadText(properties, "keyType", "") == settings.keyType
      && ReadText(properties, "subjectText", "") == settings.subjectText
      && ReadText(properties, "SANs", "") == settings.sans
  {
  }

  lemma DeploySettingRoundTrip(settings: Settings)
    ensures ReadFlag(StoreProperties(settings), "DeployCertificateOnRenewal") == Success(settings.deployCertificateOnRenewal)
  {
    ReadFlagRoundTrip(StoreProperties(settings), "DeployCertificateOnRenewal", settings.deployCertificateOnRenewal);
  }

  lemma IgnoreSslSettingRoundTrip(settings: Settings)
    ensures ReadFlag(StoreProperties(settings), "IgnoreSSLWarning") == Success(settings.ignoreSslWarning)
  {
    ReadFlagRoundTrip(StoreProperties(settings), "IgnoreSSLWarning", settings.ignoreSslWarning);
  }

  lemma TokenSettingRoundTrip(settings: Settings)
    ensures ReadFlag(StoreProperties(settings), "UseTokenAuth") == Success(settings.useTokenAuth)
  {
    ReadFlagRoundTrip(StoreProperties(settings), "UseTokenAuth", settings.useTokenAuth);
  }

  lemma KeySizeSettingRoundTrip(settings: Settings)
    ensures ReadKeySize(StoreProperties(settings)) == Success(settings.keySize)
  {
    var properties := StoreProperties(settings);
    match settings.keySize {
      case None =>
        assert "keySize" !in properties;
      case Some(size) =>
        ReadKeySizeRoundTrip(properties, size);
    }
  }

  /** Reading the written properties gives back the settings (a blank provider name reads as "tmos"). */
  lemma SettingsRoundTrip(settings: Settings)
    requires settings.loginProviderName != ""
    ensures ReadSettings(StoreProperties(settings)) == Success(settings)
  {
    DeploySettingRoundTrip(settings);
    IgnoreSslSettingRoundTrip(settings);
    TokenSettingRoundTrip(settings);
    KeySizeSettingRoundTrip(settings);
    TextSettingsRoundTrip(settings);
    ReadSettingsOf(StoreProperties(settings), settings);
  }

  /** The client construction arguments and the `GenerateCSR` arguments. */
  datatype CsrRequest = CsrRequest(
    clientMachine: string,
    storePath: string,
    userName: string,
    password: string,
    loginProviderName: string,
    useTokenAuth: bool,
    ignoreSslWarning: bool,
    alias: string,
    subjectText: string,
    keyType: string,
    keySize: Option<Int32>,
    sans: string)

  /** Constructing the client and generating the CSR: nothing, or the exception thrown. */
  type CsrCall = CsrRequest -> Result<(), string>

  function CsrRequestFor(job: ReenrollmentJob, settings: Settings, alias: string): CsrRequest {
    CsrRequest(
      job.clientMachine, job.storePath, job.serverUserName, job.serverPassword,
      settings.loginProviderName, settings.useTokenAuth, settings.ignoreSslWarning,
      alias, settings.subjectText, settings.keyType, settings.keySize, settings.sans)
  }

  /** What the job returned, and the CSR request it made, if any. */
  datatype ReenrollmentRun = ReenrollmentRun(outcome: JobOutcome, request: Option<CsrRequest>)

  /** `Reenrollment.ProcessJob`, with the key size read as intended. */
  function ProcessJob(job: ReenrollmentJob, generate: CsrCall): (run: ReenrollmentRun)
    ensures run.outcome.Escaped? <==> !Convertible(job.properties)
    ensures run.outcome.Escaped? ==> run.request.None?
    ensures run.outcome.Escaped? ==> run.outcome.error == ReadSettings(job.properties).error
    ensures run.outcome.Returned? ==> run.outcome.result.jobHistoryId == job.jobHistoryId
    ensures Convertible(job.properties) && Given(job.properties, "Alias").None? ==>
      run == ReenrollmentRun(FailedWith(job.jobHistoryId, Text(SitePrefix(job.storePath, job.clientMachine) + ": " + AliasMissing)), None)
    ensures run.request.Some? <==> Convertible(job.properties) && Given(job.properties, "Alias").Some?
    ensures run.request.Some? ==>
      && run.request.value.alias == job.properties["Alias"]
      && run.request.value.clientMachine == job.clientMachine
      && run.request.value.storePath == job.storePath
      && run.request.value.useTokenAuth == ReadFlag(job.properties, "UseTokenAuth").value
      && run.request.value.loginProviderName == Given(job.properties, "LoginProviderName").GetOr(DefaultLoginProvider)
    ensures run.request.Some? ==>
      && run.request.value.userName == job.serverUserName
      && run.request.value.password == job.serverPassword
      && run.request.value.ignoreSslWarning == ReadFlag(job.properties, "IgnoreSSLWarning").value
      && run.request.value.subjectText == Given(job.properties, "subjectText").GetOr("")
      && run.request.value.keyType == Given(job.properties, "keyType").GetOr("")
      && run.request.value.keySize == ReadKeySize(job.properties).value
      && run.request.value.sans == Given(job.properties, "SANs").GetOr("")
    ensures run.request.Some? ==>
      run.outcome == (match generate(run.request.value)
                      case Success(_) => Succeeded(job.jobHistoryId)
                      case Failure(e) => FailedWith(job.jobHistoryId, Flattened(SitePrefix(job.storePath, job.clientMachine) + ":", e)))
  {
    match ReadSettings(job.properties)
    case Failure(error) => ReenrollmentRun(Escaped(error), None)
    case Success(settings) =>
      match Given(job.properties, "Alias")
      case None =>
        var message := SitePrefix(job.storePath, job.clientMachine) + ": " + AliasMissing;
        ReenrollmentRun(FailedWith(job.jobHistoryId, Text(message)), None)
      case Some(alias) =>
        var request := CsrRequestFor(job, settings, alias);
        match generate(request)
        case Success(_) => ReenrollmentRun(Succeeded(job.jobHistoryId), Some(request))
        case Failure(e) =>
          ReenrollmentRun(FailedWith(job.jobHistoryId, Flattened(SitePrefix(job.storePath, job.clientMachine) + ":", e)), Some(request))
  }

  /** Two property sets that agree on every key but DeployCertificateOnRenewal are read alike. */
  lemma ReadSettingsIgnoresDeployValue(pa: Properties, pb: Properties)
    requires ReadFlag(pa, "DeployCertificateOnRenewal").Success?
    requires ReadFlag(pb, "DeployCertificateOnRenewal").Success?
    requires Given(pa, "IgnoreSSLWarning") == Given(pb, "IgnoreSSLWarning")
    requires Given(pa, "UseTokenAuth") == Given(pb, "UseTokenAuth")
    requires Given(pa, "LoginProviderName") == Given(pb, "LoginProviderName")
    requires Given(pa, "keyType") == Given(pb, "keyType")
    requires Given(pa, "keySize") == Given(pb, "keySize")
    requires Given(pa, "subjectText") == Given(pb, "subjectText")
    requires Given(pa, "SANs") == Given(pb, "SANs")
    ensures ReadSettings(pa).Success? <==> ReadSettings(pb).Success?
    ensures ReadSettings(pa).Failure? ==> ReadSettings(pa).error == ReadSettings(pb).error
    ensures ReadSettings(pa).Success? ==>
      ReadSettings(pb).value == ReadSettings(pa).value.(deployCertificateOnRenewal := ReadFlag(pb, "DeployCertificateOnRenewal").value)
  {
    assert ReadFlag(pa, "IgnoreSSLWarning") == ReadFlag(pb, "IgnoreSSLWarning");
    assert ReadFlag(pa, "UseTokenAuth") == ReadFlag(pb, "UseTokenAuth");
    assert ReadKeySize(pa) == ReadKeySize(pb);
    assert FlagsConvert(pa) == FlagsConvert(pb);
    if ReadSettings(pa).Failure? && FlagsConvert(pa) {
      assert pa["keySize"] == pb["keySize"];
    }
  }

  /** The job depends on the properties only through the settings (up to the deploy flag) and the alias. */
  lemma ProcessJobReadsSettingsAndAlias(job: ReenrollmentJob, pa: Properties, pb: Properties, generate: CsrCall)
    requires ReadSettings(pa).Success? <==> ReadSettings(pb).Success?
    requires ReadSettings(pa).Failure? ==> ReadSettings(pa).error == ReadSettings(pb).error
    requires ReadSettings(pa).Success? ==>
      ReadSettings(pb).value == ReadSettings(pa).value.(deployCertificateOnRenewal := ReadSettings(pb).value.deployCertificateOnRenewal)
    requires Given(pa, "Alias") == Given(pb, "Alias")
    ensures ProcessJob(job.(properties := pa), generate) == ProcessJob(job.(properties := pb), generate)
  {
  }

  /**
   * DeployCertificateOnRenewal is checked for being a boolean but does not
   * influence the job: stores that differ only in its (valid) value run alike.
   */
  lemma DeployFlagUnused(job: ReenrollmentJob, pa: Properties, pb: Properties, generate: CsrCall)
    requires ReadFlag(pa, "DeployCertificateOnRenewal").Success?
    requires ReadFlag(pb, "DeployCertificateOnRenewal").Success?
    requires forall k :: k != "DeployCertificateOnRenewal" ==> Given(pa, k) == Given(pb, k)
    ensures ProcessJob(job.(properties := pa), generate) == ProcessJob(job.(properties := pb), generate)
  {
    AgreeOffDeploy(pa, pb);
    ReadSettingsIgnoresDeployValue(pa, pb);
    ProcessJobReadsSettingsAndAlias(job, pa, pb, generate);
  }

  /** Agreement on every key but the deploy flag, spelled out for the keys the job reads. */
  lemma AgreeOffDeploy(pa: Properties, pb: Properties)
    requires forall k :: k != "DeployCertificateOnRenewal" ==> Given(pa, k) == Given(pb, k)
    ensures Given(pa, "IgnoreSSLWarning") == Given(pb, "IgnoreSSLWarning")
    ensures Given(pa, "UseTokenAuth") == Given(pb, "UseTokenAuth")
    ensures Given(pa, "LoginProviderName") == Given(pb, "LoginProviderName")
    ensures Given(pa, "keyType") == Given(pb, "keyType")
    ensures Given(pa, "keySize") == Given(pb, "keySize")
    ensures Given(pa, "subjectText") == Given(pb, "subjectText")
    ensures Given(pa, "SANs") == Given(pb, "SANs")
    ensures Given(pa, "Alias") == Given(pb, "Alias")
  {
  }
}

=== FILE: strings.dfy ===
/**
 * Ordinal `String.Replace`: every non-overlapping occurrence of a pattern,
 * scanned left to right, is replaced. Its partner is the split of a string
 * at those same occurrences, joined back together.
 */
module Strings {

  /** `pat` occurs in `s` starting at position `i`. */
  predicate MatchesAt(s: string, pat: string, i: nat) {
    i + |pat| <= |s| && s[i..i + |pat|] == pat
  }

  predicate Occurs(s: string, pat: string) {
    exists i: nat | i <= |s| :: MatchesAt(s, pat, i)
  }

  /** `s.Replace(pat, rep)` with ordinal comparison. */
  function ReplaceAll(s: string, pat: string, rep: string): string
    requires |pat| > 0
    decreases |s|
  {
    if |s| == 0 then ""
    else if MatchesAt(s, pat, 0) then rep + ReplaceAll(s[|pat|..], pat, rep)
    else [s[0]] + ReplaceAll(s[1..], pat, rep)
  }

  /** The pieces of `s` between the left-to-right occurrences of `pat`. */
  function Split(s: string, pat: string): (parts: seq<string>)
    requires |pat| > 0
    ensures |parts| >= 1
    decreases |s|
  {
    if |s| == 0 then [""]
    else if MatchesAt(s, pat, 0) then [""] + Split(s[|pat|..], pat)
    else
      var rest := Split(s[1..], pat);
      [[s[0]] + rest[0]] + rest[1..]
  }

  /** The pieces with `sep` between each neighbouring pair. */
  function Join(parts: seq<string>, sep: string): string
    requires |parts| >= 1
  {
    if |parts| == 1 then parts[0] else parts[0] + sep + Join(parts[1..], sep)
  }

  lemma {:induction false} JoinConsFirst(c: char, parts: seq<string>, sep: string)
    requires |parts| >= 1
    ensures Join([[c] + parts[0]] + parts[1..], sep) == [c] + Join(parts, sep)
  {
    var q := [[c] + parts[0]] + parts[1..];
    assert q[1..] == parts[1..];
  }

  /** Joining after a leading empty piece starts with the separator. */
  lemma JoinConsEmpty(parts: seq<string>, sep: string)
    requires |parts| >= 1
    ensures Join([""] + parts, sep) == sep + Join(parts, sep)
  {
    assert ([""] + parts)[1..] == parts;
  }

  /** Both functions step over a match at the front in the same way. */
  lemma UnfoldAtMatch(s: string, pat: string, rep: string)
    requires |pat| > 0 && |s| > 0 && MatchesAt(s, pat, 0)
    ensures ReplaceAll(s, pat, rep) == rep + ReplaceAll(s[|pat|..], pat, rep)
    ensures Split(s, pat) == [""] + Split(s[|pat|..], pat)
  {
  }

  /** Both functions step over a character that starts no match in the same way. */
  lemma UnfoldOffMatch(s: string, pat: string, rep: string)
    requires |pat| > 0 && |s| > 0 && !MatchesAt(s, pat, 0)
    ensures ReplaceAll(s, pat, rep) == [s[0]] + ReplaceAll(s[1..], pat, rep)
    ensures Split(s, pat) == [[s[0]] + Split(s[1..], pat)[0]] + Split(s[1..], pat)[1..]
  {
  }

  /** Joining the pieces with the pattern gives back the original string. */
  lemma {:induction false} JoinSplit(s: string, pat: string)
    requires |pat| > 0
    ensures Join(Split(s, pat), pat) == s
    decreases |s|
  {
    if |s| == 0 {
    } else if MatchesAt(s, pat, 0) {
      JoinSplit(s[|pat|..], pat);
      UnfoldAtMatch(s, pat, pat);
      JoinConsEmpty(Split(s[|pat|..], pat), pat);
      assert s == pat + s[|pat|..];
    } else {
      JoinSplit(s[1..], pat);
      UnfoldOffMatch(s, pat, pat);
      JoinConsFirst(s[0], Split(s[1..], pat), pat);
      assert s == [s[0]] + s[1..];
    }
  }

  /** Replacing is splitting at the pattern and joining with the replacement. */
  lemma {:induction false} ReplaceIsSplitJoin(s: string, pat: string, rep: string)
    requires |pat| > 0
    ensures ReplaceAll(s, pat, rep) == Join(Split(s, pat), rep)
    decreases |s|
  {
    if |s| == 0 {
    } else if MatchesAt(s, pat, 0) {
      ReplaceIsSplitJoin(s[|pat|..], pat, rep);
      UnfoldAtMatch(s, pat, rep);
      JoinConsEmpty(Split(s[|pat|..], pat), rep);
    } else {
      ReplaceIsSplitJoin(s[1..], pat, rep);
      UnfoldOffMatch(s, pat, rep);
      JoinConsFirst(s[0], Split(s[1..], pat), rep);
    }
  }

  /** The first piece is a prefix of `s` that contains no occurrence of `pat`. */
  lemma {:induction false} SplitHeadFree(s: string, pat: string)
    requires |pat| > 0
    ensures Split(s, pat)[0] <= s
    ensures !Occurs(Split(s, pat)[0], pat)
    decreases |s|
  {
    if |s| == 0 {
    } else if MatchesAt(s, pat, 0) {
    } else {
      var rest := Split(s[1..], pat);
      SplitHeadFree(s[1..], pat);
      var head := [s[0]] + rest[0];
      assert head == s[..|head|];
      forall i: nat | MatchesAt(head, pat, i)
        ensures false
      {
        if i > 0 {
          assert rest[0][i - 1..i - 1 + |pat|] == head[i..i + |pat|];
          assert MatchesAt(rest[0], pat, i - 1);
        }
      }
    }
  }

  /** No piece of the split contains the pattern: every occurrence was a separator. */
  lemma {:induction false} SplitPartsFree(s: string, pat: string)
    requires |pat| > 0
    ensures forall k :: 0 <= k < |Split(s, pat)| ==> !Occurs(Split(s, pat)[k], pat)
    decreases |s|
  {
    var parts := Split(s, pat);
    SplitHeadFree(s, pat);
    if |s| == 0 {
    } else if MatchesAt(s, pat, 0) {
      SplitPartsFree(s[|pat|..], pat);
      assert forall k :: 1 <= k < |parts| ==> parts[k] == Split(s[|pat|..], pat)[k - 1];
    } else {
      SplitPartsFree(s[1..], pat);
      assert forall k :: 1 <= k < |parts| ==> parts[k] == Split(s[1..], pat)[k];
    }
  }

  /** A string without the pattern is left exactly as it was. */
  lemma {:induction false} ReplaceAbsent(s: string, pat: string, rep: string)
    requires |pat| > 0
    requires !Occurs(s, pat)
    ensures ReplaceAll(s, pat, rep) == s
    decreases |s|
  {
    if |s| > 0 {
      assert !MatchesAt(s, pat, 0);
      forall i: nat | MatchesAt(s[1..], pat, i)
        ensures false
      {
        assert s[1..][i..i + |pat|] == s[i + 1..i + 1 + |pat|];
        assert MatchesAt(s, pat, i + 1);
      }
      ReplaceAbsent(s[1..], pat, rep);
      assert s == [s[0]] + s[1..];
    }
  }
}

=== FILE: wrappers.dfy ===
/** Optional values and fallible results, usable with Dafny's `:-` operator. */
module Wrappers {

  /** A value that may be absent: a C# null reference or a missing JSON property. */
  datatype Option<+T> = None | Some(value: T) {

    /** The wrapped value, or `default` when there is none. */
    function GetOr(default: T): T {
      match this
      case Some(v) => v
      case None => default
    }
  }

  /** The outcome of a step that may throw: `Failure` carries what was thrown. */
  datatype Result<+T, +E> = Success(value: T) | Failure(error: E) {

    predicate IsFailure() {
      Failure?
    }

    function PropagateFailure<U>(): Result<U, E>
      requires Failure?
    {
      Failure(error)
    }

    function Extract(): T
      requires Success?
    {
      value
    }
  }
}
